=== FILE: README.md ===
# Authentication session manager — Dafny model

This project models `AuthProvider` in `app/contexts/AuthContext.tsx`, which is the
authentication session manager of a small Expo/React Native client for a PocketBase backend.
It keeps three pieces of in-memory state: `isAuthenticated`, `user` and `isLoading`.
It mirrors the session into the device's secure store under two keys, `authToken` and `authModel`.
Its operations are startup restore (`loadStoredAuth`), `login`, `register`, `logout` and the two
storage helpers `saveAuthToStorage` and `clearAuthStorage`.

The model is functional. Each asynchronous operation is one atomic step from a `System` to the
next. A `System` pairs the in-memory `Session` with the store.

- **Store** (`secure_store.dfy`). The store is a `map<string, string>`. Each storage call takes a
  flag saying whether it rejects, and a rejected call changes nothing. Each helper makes two calls,
  first on `authToken` and then on `authModel`, and its `Faults` value says which of them reject.
  Both calls sit in one `try`, so when the first call rejects, the second is never made.
- **Backend** (`identity_service.dfy`). The backend is not modelled. Each request is answered by an
  outcome passed in as a parameter: a token plus a user record, or an error with an optional HTTP
  status and an optional code for the `email` field. Every operation returns the requests it sent,
  in order.
- **User record and JSON** (`user_json.dfy`). A user record is a flat object given as a list of
  string, boolean or null properties, stored in the order listed. `Encode` stands for `JSON.stringify` and `Decode`
  for `JSON.parse`. Strings are escaped the way `JSON.stringify` escapes them: `\"`, `\\`, `\b`, `\t`,
  `\n`, `\f`, `\r`, and `\u00xx` for any other control character. `Decode` refuses a raw control
  character inside a string, as `JSON.parse` does. Having no white space, it also refuses tab, LF
  and CR between tokens, which `JSON.parse` skips. `Decode` is partial, and `Decode(s) == Some(r)` holds exactly
  when `s == Encode(r)`.
- **Errors** (`auth_errors.dfy`). This file holds the six error messages and the two translation
  rules. `login` translates by status alone. `register` checks the uniqueness code first and the
  status second.
- **Session manager** (`auth_context.dfy`) holds the state and the operations.
- **Cross-operation properties** (`auth_properties.dfy`) cover what a restart restores after a
  full, partial or failed write or delete. They also cover logout idempotence and the fact that
  fault-free operations keep memory and store in agreement.

Four behaviours of the code are worth spelling out:

- The restore test `storedToken && storedModel` is JavaScript truthiness. An empty-string token
  counts as absent, so a session saved with an empty token is never restored (`EmptyTokenIsNotRestored`).
- `register` does rethrow. When the chained `login` fails, `register` catches a plain `Error`
  with no status and no response body. That error is always reported as "Registration failed…",
  whatever `login` had reported.
- A `login` that fails leaves the state as it was, which may still be authenticated. It does not
  force a logged-out state. Nothing prevents `login` while a session is active.
- While `isLoading` is true the provider renders nothing (lines 120-122). So no screen can call
  `login`, `register` or `logout` before the restore has finished. The model's operations also
  accept a state with `isLoading` true, which the code never reaches. They leave `isLoading` as
  they found it.

The storage and session behaviour of the code has some gaps worth knowing:

- **No server-side revocation.** Logout sends no request to the backend
  (`Logout` ensures `requests == []`).
- **A failed token delete keeps the session on disk.** Logout clears memory, but if deleting
  `authToken` is rejected, the model delete is skipped. Both keys stay, and the next start logs
  the user back in (`FailedTokenDeleteKeepsStoredSession`). A model without a token arises only
  when the token delete succeeds and the model delete is rejected. That store restores as
  logged out (`LogoutRestoresLoggedOut`).
- **A partial save can pair a token with another user.** If the `authModel` write is rejected
  after the `authToken` write succeeded, the store holds the new token next to whatever model was
  already there. If that model came from an earlier session, a restart restores the new token with
  the earlier user (`PartialWriteRestoresEarlierUser`).
- **A token can come with an empty user.** A stored model `{}` next to a non-empty token restores
  as authenticated with the empty user `{}`.
- **Failing closed can drop a stored session.** A rejected read at startup leaves memory logged
  out even when the store holds a session that a later restart restores
  (`RejectedReadLosesStoredSession`).

## Model

| member | source | states |
|---|---|---|
| `SecureStore.GetItem` | app/contexts/AuthContext.tsx:35-36 | a read rejects exactly when told to; otherwise it yields the entry for the key, or none when the key is absent |
| `SecureStore.SetItem` | app/contexts/AuthContext.tsx:52-53 | a write rejects exactly when told to; otherwise the key holds the new value and every other key keeps its entry |
| `SecureStore.DeleteItem` | app/contexts/AuthContext.tsx:61-62 | a delete rejects exactly when told to; otherwise the key is gone and every other key keeps its entry |
| `UserJson.Encode` | app/contexts/AuthContext.tsx:53 | the stored model text is a braced object, so it is never empty and always truthy |
| `UserJson.DecodeEncode` | app/contexts/AuthContext.tsx:53 | parsing the stringified record gives back that record |
| `UserJson.EncodeDecode` | app/contexts/AuthContext.tsx:39-41 | text the parser accepts is exactly the encoding of the record it yields |
| `UserJson.DecodeIffEncoded` | app/contexts/AuthContext.tsx:39-53 | `Decode(s) == Some(r)` holds if and only if `s == Encode(r)` |
| `UserJson.DecodedIsPrintable` | app/contexts/AuthContext.tsx:39-41 | text the model's parser accepts holds no raw control character |
| `UserJson.ControlCharNeverDecodes` | app/contexts/AuthContext.tsx:39-41 | text holding a raw control character anywhere is refused by the model's parser |
| `AuthErrors.MessagesDistinct` | app/contexts/AuthContext.tsx:77-108 | two errors have the same message exactly when they are the same category |
| `AuthErrors.ClassifyLoginError` | app/contexts/AuthContext.tsx:77-85 | 400 gives "Invalid email or password" and 404 gives "User does not exist", each in both directions; every other status, or none, gives the connection message |
| `AuthErrors.ClassifyRegisterError` | app/contexts/AuthContext.tsx:102-108 | the `validation.unique` email code gives "Email already exists" whatever the status; otherwise 400 gives "Invalid registration data"; otherwise "Registration failed…"; each in both directions |
| `AuthErrors.RethrownLoginErrorIsRegistrationFailure` | app/contexts/AuthContext.tsx:100-107 | whatever error login throws, register reports "Registration failed…" |
| `AuthContext.LoadStoredAuth` | app/contexts/AuthContext.tsx:33-48 | `isLoading` ends false on every path; a rejected read leaves the rest of the state as it was; with no rejection, a stored non-empty token plus a model that decodes installs that model as an authenticated user; otherwise the rest of the state is unchanged |
| `AuthContext.Startup` | app/contexts/AuthContext.tsx:24-47 | from the initial state, restore yields authenticated if and only if no read rejects and the store holds a non-empty token and a decodable model; the user is then that model and otherwise `{}` |
| `AuthContext.SaveAuthToStorage` | app/contexts/AuthContext.tsx:50-57 | only the two keys can change; a rejected token write changes nothing; a token write that succeeds stores the token; a save with no rejection also stores the encoded record; a rejected model write leaves the old model entry |
| `AuthContext.ClearAuthStorage` | app/contexts/AuthContext.tsx:59-66 | only the two keys can change; a rejected token delete changes nothing; otherwise the token is gone; with no rejection the model is gone too; a rejected model delete leaves the model entry |
| `AuthContext.Login` | app/contexts/AuthContext.tsx:68-87 | sends exactly one `authWithPassword(email, password)`; throws exactly when the backend rejects; only the two keys can change; on success the session is authenticated with the returned record, `isLoading` is untouched and the store is exactly what `saveAuthToStorage` makes of that token and record: a rejected token write leaves the store as it was, otherwise the token is stored, and with no rejection the decodable record is stored too; on rejection the system is unchanged and the error follows the status rule |
| `AuthContext.Register` | app/contexts/AuthContext.tsx:89-110 | always sends `create` first; if `create` is rejected, the system is unchanged, no login is sent and the register rule applies; otherwise it sends `authWithPassword` with the same email and password and ends exactly where that login ends; a failed chained login reports "Registration failed…"; it succeeds exactly when both calls succeed; it only throws register categories |
| `AuthContext.Logout` | app/contexts/AuthContext.tsx:112-118 | never throws and sends no request; the session is logged out with user `{}` and `isLoading` untouched; the store is exactly what `clearAuthStorage` makes of it, so only the two keys can change; a rejected token delete leaves the store as it was; otherwise the store holds no restorable session; a rejected model delete leaves the model entry; with no rejection both keys are gone |
| `AuthProperties.SaveThenRestore` | app/contexts/AuthContext.tsx:33-57 | after a complete save of a non-empty token and a record, a fault-free restart restores exactly that record |
| `AuthProperties.EmptyTokenIsNotRestored` | app/contexts/AuthContext.tsx:38 | a session saved with an empty token restores as logged out |
| `AuthProperties.PartialWriteRestoresLoggedOut` | app/contexts/AuthContext.tsx:38-53 | a save whose model write rejects, into a store with no model, restores as logged out with user `{}` |
| `AuthProperties.PartialWriteRestoresEarlierUser` | app/contexts/AuthContext.tsx:38-53 | a save whose model write rejects, over an earlier stored model, restores as authenticated with the earlier user |
| `AuthProperties.ControlCharModelFailsClosed` | app/contexts/AuthContext.tsx:33-47 | a stored model holding a raw control character other than tab, LF or CR fails to parse, so restore ends logged out with user `{}` under any faults |
| `AuthProperties.LogoutRestoresLoggedOut` | app/contexts/AuthContext.tsx:38-62 | once logout's token delete succeeds, any restart restores logged out with user `{}`, whatever happened to the model delete |
| `AuthProperties.FailedTokenDeleteKeepsStoredSession` | app/contexts/AuthContext.tsx:38-62 | if logout's token delete rejects, a restart restores whatever it would have restored before the logout |
| `AuthProperties.LogoutIdempotent` | app/contexts/AuthContext.tsx:112-116 | a second logout gives the same session and does not throw; after a fault-free first logout it changes nothing at all |
| `AuthProperties.LastLoginWins` | app/contexts/AuthContext.tsx:68-75 | after two successful fault-free logins, memory and a restart both hold the second login's user |
| `AuthProperties.RegisterSuccessIsLogin` | app/contexts/AuthContext.tsx:95-100 | a successful register throws nothing and ends in the same system as a successful login with the same answer, authenticated as the returned record |
| `AuthProperties.RejectedReadLosesStoredSession` | app/contexts/AuthContext.tsx:33-47 | a startup whose token or model read is rejected ends logged out with user `{}`, even over a store holding a restorable session, so memory then disagrees with what a fault-free restart restores |
| `AuthProperties.LoginKeepsConsistent` | app/contexts/AuthContext.tsx:68-86 | a fault-free login, successful or not, keeps memory and store in agreement when the token is non-empty |
| `AuthProperties.RegisterKeepsConsistent` | app/contexts/AuthContext.tsx:89-109 | a fault-free register, successful or not, keeps memory and store in agreement when the token is non-empty |
| `AuthProperties.LogoutRestoresConsistency` | app/contexts/AuthContext.tsx:112-116 | a logout whose token delete succeeds leaves memory and store in agreement, from any state |

## Left out

- PocketBase itself is left out: the client, its hard-coded URL and the HTTP calls (lines 27, 70-72, 95-99). Backend answers are parameters, and the record returned by `create` is ignored, as in the code.
- `pb.authStore` is left out (lines 39, 75, 113). It is SDK-internal state. The model keeps only the token it hands back, which is the token of the `authWithPassword` response.
- The SecureStore internals are left out. The store is a map, and each call carries a flag saying whether it rejects. A rejected write is assumed to leave its key unchanged.
- `JSON.stringify`/`JSON.parse` are replaced by a codec for flat objects of string, boolean and null properties, with no white space. It does not cover numbers, nested objects or arrays. Stored text that is valid JSON but not such an object (for example `null`) is treated as a parse error. `JSON.parse` would accept it.
- `UserJson.Decode` admits no white space, so it refuses a stored model with space, tab, LF or CR between tokens, which `JSON.parse` skips; restore then fails closed where the code restores the session. Text this code writes has no white space.
- `UserJson.Decode` accepts only the escapes `Encode` writes. `JSON.parse` also accepts `\/`, a `\u` escape of any character, upper-case hex digits, and a `\u` form of a character that has a short escape. For a stored model using one of these, the model's restore fails closed where the code restores the session. Text this code writes never uses them.
- `UserJson.Decode` keeps every property of a text with a repeated key, in order. `JSON.parse` keeps only the last value of a repeated key. Text this code writes never repeats a key, so the difference only shows for a store written by something else.
- `UserJson.Encode` writes properties in the order of the list. `JSON.stringify` puts integer-like keys first, in ascending order. A record is therefore read as an object already in `JSON.stringify` order, and the model does not rule out repeated keys or out-of-order integer keys in it.
- React is left out: hooks, the `null` render while loading (lines 120-122), the context value, `router.replace('/login')` (line 117) and `console.error` logging.
- Asynchronous interleaving is left out. Each operation is one atomic step, so a login racing the startup restore is not modelled.
- The screens under `app/(auth)`, `app/(tabs)`, `app/screens`, `app/index.tsx` and `app/_layout.tsx` are left out. They are presentation only.

=== FILE: auth_context.dfy ===
/**
 * The authentication session manager (`AuthProvider`): the state triple
 * `isAuthenticated` / `user` / `isLoading`, the two persisted keys, and the
 * operations that move between them. Each asynchronous operation is one
 * atomic step from a `System` (memory and device store) to the next.
 */
module AuthContext {
  import opened Wrappers
  import opened UserJson
  import opened SecureStore
  import opened IdentityService
  import opened AuthErrors

  const TokenKey: string := "authToken"
  const ModelKey: string := "authModel"

  datatype Session = Session(isAuthenticated: bool, user: UserRecord, isLoading: bool)

  /** The state before the stored session has been looked at. */
  const Initial: Session := Session(false, Empty, true)

  datatype System = System(session: Session, store: Store)

  /**
   * Which of the two storage calls of a helper reject: the call on
   * `authToken`, which always comes first, and the call on `authModel`.
   */
  datatype Faults = Faults(onToken: bool, onModel: bool)

  const NoFaults: Faults := Faults(false, false)

  /**
   * The result of `login`, `register` or `logout`: the system afterwards, the
   * backend requests issued in order, and the error thrown, if any.
   */
  datatype Step = Step(after: System, requests: seq<Request>, raised: Option<AuthError>)

  /** JavaScript truthiness of a value read from the store: neither `null` nor "". */
  predicate Truthy(v: Option<string>)
  {
    v.Some? && v.value != ""
  }

  /**
   * The user a restart would install from `store`, read straight off the
   * map: a non-empty token and a model that decodes. Reference definition
   * for `LoadStoredAuth`.
   */
  function StoredUser(store: Store): Option<UserRecord>
  {
    if TokenKey in store && store[TokenKey] != "" && ModelKey in store then Decode(store[ModelKey])
    else None
  }

  // ------------------------------------------------------------------ restore

  /**
   * `loadStoredAuth`. Reads the token, then the model; installs the decoded
   * model only when both are truthy. A rejected read or a model that does not
   * parse is caught, and `isLoading` ends false on every path.
   */
  function LoadStoredAuth(s: Session, store: Store, f: Faults): (r: Session)
    ensures !r.isLoading
    ensures f.onToken || f.onModel ==> r == s.(isLoading := false)
    ensures f == NoFaults && StoredUser(store).Some? ==> r == Session(true, StoredUser(store).value, false)
    ensures StoredUser(store).None? ==> r == s.(isLoading := false)
  {
    var done := s.(isLoading := false);
    match GetItem(store, TokenKey, f.onToken)
    case Err(_) => done
    case Ok(token) =>
      match GetItem(store, ModelKey, f.onModel)
      case Err(_) => done
      case Ok(model) =>
        if Truthy(token) && Truthy(model) then
          match Decode(model.value)
          case None => done
          case Some(user) => Session(true, user, false)
        else done
  }

  /** The restore the provider runs once, on mount, from the initial state. */
  function Startup(store: Store, f: Faults): (r: Session)
    ensures !r.isLoading
    ensures r.isAuthenticated <==> f == NoFaults && StoredUser(store).Some?
    ensures r.isAuthenticated ==> r.user == StoredUser(store).value
    ensures !r.isAuthenticated ==> r.user == Empty
  {
    LoadStoredAuth(Initial, store, f)
  }

  // ------------------------------------------------------- storage helpers

  /**
   * `saveAuthToStorage`: writes the token, then the encoded model. The first
   * rejection ends the attempt and is swallowed, so the result is always a
   * store.
   */
  function SaveAuthToStorage(store: Store, token: string, model: UserRecord, f: Faults): (r: Store)
    ensures forall k :: k != TokenKey && k != ModelKey ==> SameEntry(r, store, k)
    ensures f.onToken ==> r == store
    ensures !f.onToken ==> TokenKey in r && r[TokenKey] == token
    ensures !f.onToken && !f.onModel ==> ModelKey in r && r[ModelKey] == Encode(model)
    ensures f.onToken || f.onModel ==> SameEntry(r, store, ModelKey)
  {
    match SetItem(store, TokenKey, token, f.onToken)
    case Err(_) => store
    case Ok(s1) =>
      match SetItem(s1, ModelKey, Encode(model), f.onModel)
      case Err(_) => s1
      case Ok(s2) => s2
  }

  /**
   * `clearAuthStorage`: deletes the token, then the model. The first
   * rejection ends the attempt and is swallowed.
   */
  function ClearAuthStorage(store: Store, f: Faults): (r: Store)
    ensures forall k :: k != TokenKey && k != ModelKey ==> SameEntry(r, store, k)
    ensures f.onToken ==> r == store
    ensures !f.onToken ==> TokenKey !in r
    ensures !f.onToken && !f.onModel ==> ModelKey !in r
    ensures f.onToken || f.onModel ==> SameEntry(r, store, ModelKey)
  {
    match DeleteItem(store, TokenKey, f.onToken)
    case Err(_) => store
    case Ok(s1) =>
      match DeleteItem(s1, ModelKey, f.onModel)
      case Err(_) => s1
      case Ok(s2) => s2
  }

  // ------------------------------------------------------------- operations

  /**
   * `login`. `answer` is the backend's response to `authWithPassword`. On
   * success the session is installed in memory and then saved, with storage
   * rejections swallowed; on rejection nothing changes and the error is
   * translated by status.
   */
  function Login(sys: System, email: string, password: string, answer: AuthResponse, f: Faults): (r: Step)
    ensures r.requests == [AuthWithPassword(email, password)]
    ensures r.raised.None? <==> answer.Ok?
    ensures answer.Ok? ==> r.after.session == Session(true, answer.value.record, sys.session.isLoading)
    ensures forall k :: k != TokenKey && k != ModelKey ==> SameEntry(r.after.store, sys.store, k)
    ensures answer.Ok? ==> r.after.store == SaveAuthToStorage(sys.store, answer.value.token, answer.value.record, f)
    ensures answer.Ok? && f.onToken ==> r.after.store == sys.store
    ensures answer.Ok? && !f.onToken ==> TokenKey in r.after.store && r.after.store[TokenKey] == answer.value.token
    ensures answer.Ok? && f == NoFaults ==>
      ModelKey in r.after.store && Decode(r.after.store[ModelKey]) == Some(answer.value.record)
    ensures answer.Err? ==> r.after == sys
    ensures answer.Err? && answer.error.status == Some(400) ==> r.raised == Some(InvalidEmailOrPassword)
    ensures answer.Err? && answer.error.status == Some(404) ==> r.raised == Some(UserDoesNotExist)
    ensures answer.Err? && answer.error.status != Some(400) && answer.error.status != Some(404) ==>
      r.raised == Some(ServerUnreachable)
  {
    var sent := [AuthWithPassword(email, password)];
    match answer
    case Ok(data) =>
      var session := sys.session.(isAuthenticated := true, user := data.record);
      var store := SaveAuthToStorage(sys.store, data.token, data.record, f);
      DecodeEncode(data.record);
      Step(System(session, store), sent, None)
    case Err(e) =>
      Step(sys, sent, Some(ClassifyLoginError(e)))
  }

  /**
   * `register`. `created` answers the `create` request and `answer` the
   * `authWithPassword` that follows it with the same email and password.
   * Every error, including one thrown by the chained login, is translated
   * by `register`'s own rules and rethrown.
   */
  function Register(sys: System, email: string, password: string, passwordConfirm: string,
                    created: CreateResponse, answer: AuthResponse, f: Faults): (r: Step)
    ensures |r.requests| > 0 && r.requests[0] == CreateUser(email, password, passwordConfirm)
    ensures created.Err? ==> r.after == sys && r.requests == [CreateUser(email, password, passwordConfirm)]
    ensures created.Err? ==> r.raised == Some(ClassifyRegisterError(created.error))
    ensures created.Ok? ==>
      r.requests == [CreateUser(email, password, passwordConfirm), AuthWithPassword(email, password)]
    ensures created.Ok? ==> r.after == Login(sys, email, password, answer, f).after
    ensures created.Ok? && answer.Err? ==> r.raised == Some(RegistrationFailed)
    ensures r.raised.None? <==> created.Ok? && answer.Ok?
    ensures r.raised.Some? ==> r.raised.value in {EmailAlreadyExists, InvalidRegistrationData, RegistrationFailed}
  {
    var sent := [CreateUser(email, password, passwordConfirm)];
    match created
    case Err(e) =>
      Step(sys, sent, Some(ClassifyRegisterError(e)))
    case Ok(_) =>
      var l := Login(sys, email, password, answer, f);
      match l.raised
      case None => Step(l.after, sent + l.requests, None)
      case Some(m) => Step(l.after, sent + l.requests, Some(ClassifyRegisterError(Thrown(m))))
  }

  /**
   * `logout`. Clears memory first, then the stored keys, swallowing any
   * storage rejection. It sends nothing to the backend and never throws.
   */
  function Logout(sys: System, f: Faults): (r: Step)
    ensures r.raised.None? && r.requests == []
    ensures r.after.session == Session(false, Empty, sys.session.isLoading)
    ensures r.after.store == ClearAuthStorage(sys.store, f)
    ensures forall k :: k != TokenKey && k != ModelKey ==> SameEntry(r.after.store, sys.store, k)
    ensures f.onToken ==> r.after.store == sys.store
    ensures !f.onToken ==> StoredUser(r.after.store).None?
    ensures f == NoFaults ==> TokenKey !in r.after.store && ModelKey !in r.after.store
    ensures f.onModel ==> SameEntry(r.after.store, sys.store, ModelKey)
  {
    var session := sys.session.(isAuthenticated := false, user := Empty);
    Step(System(session, ClearAuthStorage(sys.store, f)), [], None)
  }
}

=== FILE: auth_errors.dfy ===
/**
 * The errors `login` and `register` throw, and the rules that translate a
 * rejected backend call into them.
 */
module AuthErrors {
  import opened Wrappers
  import opened IdentityService

  datatype AuthError =
    | InvalidEmailOrPassword
    | UserDoesNotExist
    | ServerUnreachable
    | EmailAlreadyExists
    | InvalidRegistrationData
    | RegistrationFailed

  /** The message of the thrown `Error`, which the screens display. */
  function Message(e: AuthError): string
  {
    match e
    case InvalidEmailOrPassword => "Invalid email or password"
    case UserDoesNotExist => "User does not exist"
    case ServerUnreachable => "Unable to connect to the server. Please try again later."
    case EmailAlreadyExists => "Email already exists"
    case InvalidRegistrationData => "Invalid registration data"
    case RegistrationFailed => "Registration failed. Please try again later."
  }

  /** Every error category has its own message. */
  lemma MessagesDistinct(a: AuthError, b: AuthError)
    ensures Message(a) == Message(b) <==> a == b
  {
    // Lengths separate all messages but the two of 25 characters, which differ at index 8.
    if Message(a) == Message(b) {
      assert |Message(a)| == |Message(b)|;
      assert Message(a)[8] == Message(b)[8];
    }
  }

  /** The `Error` that `login` throws, as `register`'s `catch` sees it: a message, no status, no response. */
  function Thrown(e: AuthError): ServiceError
  {
    ServiceError(None, None)
  }

  /** `login`'s translation: by HTTP status alone. */
  function ClassifyLoginError(e: ServiceError): (r: AuthError)
    ensures r == InvalidEmailOrPassword <==> e.status == Some(400)
    ensures r == UserDoesNotExist <==> e.status == Some(404)
    ensures r == ServerUnreachable <==> e.status != Some(400) && e.status != Some(404)
  {
    if e.status == Some(400) then InvalidEmailOrPassword
    else if e.status == Some(404) then UserDoesNotExist
    else ServerUnreachable
  }

  /** `register`'s translation: the uniqueness code first, then the status. */
  function ClassifyRegisterError(e: ServiceError): (r: AuthError)
    ensures r == EmailAlreadyExists <==> e.emailCode == Some(UniqueCode)
    ensures r == InvalidRegistrationData <==> e.emailCode != Some(UniqueCode) && e.status == Some(400)
    ensures r == RegistrationFailed <==> e.emailCode != Some(UniqueCode) && e.status != Some(400)
  {
    if e.emailCode == Some(UniqueCode) then EmailAlreadyExists
    else if e.status == Some(400) then InvalidRegistrationData
    else RegistrationFailed
  }

  /** Whatever `login` throws, `register` reports it as a failed registration. */
  lemma RethrownLoginErrorIsRegistrationFailure(e: AuthError)
    ensures ClassifyRegisterError(Thrown(e)) == RegistrationFailed
  {
  }
}

=== FILE: auth_properties.dfy ===
/**
 * Properties that relate several session operations: what a restart
 * restores after each kind of write, logout's idempotence, and the
 * agreement between memory and the device store that fault-free operations
 * keep.
 */
module AuthProperties {
  import opened Wrappers
  import opened UserJson
  import opened SecureStore
  import opened IdentityService
  import opened AuthContext

  // ------------------------------------------------------ save, then restore

  /** A complete save of a non-empty token is restored exactly. */
  lemma SaveThenRestore(store: Store, token: string, user: UserRecord)
    requires token != ""
    ensures Startup(SaveAuthToStorage(store, token, user, NoFaults), NoFaults) == Session(true, user, false)
  {
    DecodeEncode(user);
  }

  /** An empty token is saved but, being falsy, never restored. */
  lemma EmptyTokenIsNotRestored(store: Store, user: UserRecord, g: Faults)
    ensures !Startup(SaveAuthToStorage(store, "", user, NoFaults), g).isAuthenticated
  {
  }

  /** A save whose model write rejects, into a store without a model, restores as logged out. */
  lemma PartialWriteRestoresLoggedOut(store: Store, token: string, user: UserRecord, g: Faults)
    requires ModelKey !in store
    ensures Startup(SaveAuthToStorage(store, token, user, Faults(false, true)), g) == Session(false, Empty, false)
  {
  }

  /**
   * A save whose model write rejects, into a store that still holds an
   * earlier model, restores the new token's session with the earlier user.
   */
  lemma PartialWriteRestoresEarlierUser(store: Store, token: string, user: UserRecord, earlier: UserRecord)
    requires token != ""
    requires ModelKey in store && store[ModelKey] == Encode(earlier)
    ensures Startup(SaveAuthToStorage(store, token, user, Faults(false, true)), NoFaults) == Session(true, earlier, false)
  {
    DecodeEncode(earlier);
  }

  /**
   * A stored model holding a raw control character other than the white
   * space `JSON.parse` skips between tokens does not parse, so any restore
   * fails closed.
   */
  lemma ControlCharModelFailsClosed(store: Store, f: Faults, i: int)
    requires ModelKey in store && 0 <= i < |store[ModelKey]| && store[ModelKey][i] < ' '
    requires store[ModelKey][i] !in {'\t', '\n', '\r'}
    ensures Startup(store, f) == Session(false, Empty, false)
  {
    ControlCharNeverDecodes(store[ModelKey], i);
  }

  // ---------------------------------------------------- logout, then restore

  /** Once the token delete has gone through, a restart finds no session, whatever happened to the model. */
  lemma LogoutRestoresLoggedOut(sys: System, f: Faults, g: Faults)
    requires !f.onToken
    ensures Startup(Logout(sys, f).after.store, g) == Session(false, Empty, false)
  {
  }

  /** A logout whose token delete rejects leaves the store as it was, so a restart restores the same session as before. */
  lemma FailedTokenDeleteKeepsStoredSession(sys: System, f: Faults, g: Faults)
    requires f.onToken
    ensures Startup(Logout(sys, f).after.store, g) == Startup(sys.store, g)
  {
  }

  /** A second logout yields the same session and throws nothing; after a fault-free first one it changes nothing at all. */
  lemma LogoutIdempotent(sys: System, f1: Faults, f2: Faults)
    ensures Logout(Logout(sys, f1).after, f2).after.session == Logout(sys, f1).after.session
    ensures Logout(Logout(sys, f1).after, f2).raised.None?
    ensures f1 == NoFaults ==> Logout(Logout(sys, f1).after, f2).after == Logout(sys, f1).after
  {
    var once := Logout(sys, f1).after;
    if f1 == NoFaults && !f2.onToken {
      var twice := Logout(once, f2).after;
      assert twice.store == once.store by {
        forall k ensures SameEntry(twice.store, once.store, k) {
          if k == TokenKey || k == ModelKey {
            assert k !in once.store && k !in twice.store;
          }
        }
      }
    }
  }

  // ------------------------------------------------------- login sequencing

  /** Of two successful fault-free logins, a restart restores the later one. */
  lemma LastLoginWins(sys: System, e1: string, p1: string, d1: AuthData, e2: string, p2: string, d2: AuthData)
    requires d2.token != ""
    ensures var first := Login(sys, e1, p1, Ok(d1), NoFaults).after;
            var second := Login(first, e2, p2, Ok(d2), NoFaults).after;
            Startup(second.store, NoFaults) == Session(true, d2.record, false)
            && second.session.user == d2.record
  {
    var first := Login(sys, e1, p1, Ok(d1), NoFaults).after;
    SaveThenRestore(first.store, d2.token, d2.record);
  }

  /** A successful register ends where a successful login with the same answer ends. */
  lemma RegisterSuccessIsLogin(sys: System, email: string, password: string, passwordConfirm: string,
                               created: UserRecord, data: AuthData, f: Faults)
    ensures var r := Register(sys, email, password, passwordConfirm, Ok(created), Ok(data), f);
            r.after == Login(sys, email, password, Ok(data), f).after
            && r.raised.None?
            && r.after.session == Session(true, data.record, sys.session.isLoading)
  {
  }

  // ---------------------------------------------- memory and store agree

  /** What a fault-free restart would restore equals what is in memory. */
  predicate Consistent(sys: System)
  {
    var restored := Startup(sys.store, NoFaults);
    restored.isAuthenticated == sys.session.isAuthenticated && restored.user == sys.session.user
  }

  /**
   * Failing closed has a price: a startup whose read rejects, over a store
   * that holds a restorable session, leaves memory logged out although a
   * later fault-free restart would log the user in.
   */
  lemma RejectedReadLosesStoredSession(store: Store, f: Faults)
    requires f.onToken || f.onModel
    requires StoredUser(store).Some?
    ensures Startup(store, f) == Session(false, Empty, false)
    ensures !Consistent(System(Startup(store, f), store))
  {
  }

  /** A fault-free login keeps memory and store in agreement, provided the backend's token is not empty. */
  lemma LoginKeepsConsistent(sys: System, email: string, password: string, answer: AuthResponse)
    requires Consistent(sys)
    requires answer.Ok? ==> answer.value.token != ""
    ensures Consistent(Login(sys, email, password, answer, NoFaults).after)
  {
    if answer.Ok? {
      SaveThenRestore(sys.store, answer.value.token, answer.value.record);
    }
  }

  /** A fault-free register keeps memory and store in agreement, provided the backend's token is not empty. */
  lemma RegisterKeepsConsistent(sys: System, email: string, password: string, passwordConfirm: string,
                                created: CreateResponse, answer: AuthResponse)
    requires Consistent(sys)
    requires answer.Ok? ==> answer.value.token != ""
    ensures Consistent(Register(sys, email, password, passwordConfirm, created, answer, NoFaults).after)
  {
    if created.Ok? {
      LoginKeepsConsistent(sys, email, password, answer);
    }
  }

  /** Logout restores agreement whenever its token delete goes through, even from a state that had lost it. */
  lemma LogoutRestoresConsistency(sys: System, f: Faults)
    requires !f.onToken
    ensures Consistent(Logout(sys, f).after)
  {
  }
}

=== FILE: identity_service.dfy ===
/**
 * The PocketBase backend at its boundary. The model does not say how the
 * backend decides; each request is answered by an outcome passed in by the
 * caller, and the requests a session operation issues are recorded so that
 * properties can speak about them.
 */
module IdentityService {
  import opened Wrappers
  import opened UserJson

  /** A request the session manager sends to the backend. */
  datatype Request =
    | AuthWithPassword(email: string, password: string)
    | CreateUser(email: string, password: string, passwordConfirm: string)

  /**
   * What a rejected call exposes to a `catch` block: the HTTP `status`, if
   * the error has one, and the `code` of the error reported for the `email`
   * field of the response body, if any.
   */
  datatype ServiceError = ServiceError(status: Option<int>, emailCode: Option<string>)

  /** The response of a successful `authWithPassword`: the auth-store token and the user record. */
  datatype AuthData = AuthData(token: string, record: UserRecord)

  type AuthResponse = Result<AuthData, ServiceError>

  /** The response of `create`: the created record, which the caller ignores. */
  type CreateResponse = Result<UserRecord, ServiceError>

  /** The email-field error code `register` tests for. */
  const UniqueCode: string := "validation.unique"
}

=== FILE: secure_store.dfy ===
/**
 * The device's secure key/value store as the session manager sees it: a
 * finite map from key to string. Every call may reject (the store is
 * locked, full, or refuses access); a rejected call changes nothing. Whether
 * a call rejects is passed in, since it depends on the device.
 */
module SecureStore {
  import opened Wrappers

  type Store = map<string, string>

  /** The rejection of a storage call. */
  datatype StorageError = StorageError

  /** `a` and `b` hold the same entry, or none, for `key`. */
  predicate SameEntry(a: Store, b: Store, key: string)
  {
    (key in a <==> key in b) && (key in a ==> a[key] == b[key])
  }

  /** `getItemAsync`: the stored string, or None (`null`) when the key is absent. */
  function GetItem(store: Store, key: string, fails: bool): (r: Result<Option<string>, StorageError>)
    ensures r.Err? <==> fails
    ensures r.Ok? ==> (r.value.Some? <==> key in store)
    ensures r.Ok? && key in store ==> r.value.value == store[key]
  {
    if fails then Err(StorageError)
    else if key in store then Ok(Some(store[key]))
    else Ok(None)
  }

  /** `setItemAsync`: replaces the entry for `key` and nothing else. */
  function SetItem(store: Store, key: string, value: string, fails: bool): (r: Result<Store, StorageError>)
    ensures r.Err? <==> fails
    ensures r.Ok? ==> key in r.value && r.value[key] == value
    ensures r.Ok? ==> forall k :: k != key ==> SameEntry(r.value, store, k)
  {
    if fails then Err(StorageError) else Ok(store[key := value])
  }

  /** `deleteItemAsync`: removes the entry for `key`, if any, and nothing else. */
  function DeleteItem(store: Store, key: string, fails: bool): (r: Result<Store, StorageError>)
    ensures r.Err? <==> fails
    ensures r.Ok? ==> key !in r.value
    ensures r.Ok? ==> forall k :: k != key ==> SameEntry(r.value, store, k)
  {
    if fails then Err(StorageError) else Ok(store - {key})
  }
}

=== FILE: user_json.dfy ===
/**
 * The user record that the session keeps in memory and persists under the
 * `authModel` key, together with the text form it is stored in.
 *
 * The record is a flat JavaScript object, given as the list of its
 * properties in the order they are written out; the list does not rule out
 * a repeated key, which no JavaScript object has. `Encode` plays the part
 * of `JSON.stringify` and `Decode` the part of `JSON.parse`: a strict
 * grammar without white space, in which a string escapes characters as
 * `JSON.stringify` does and admits no other escape and no raw control
 * character. `Decode` is partial, and on its domain it is the exact inverse
 * of `Encode`.
 */
module UserJson {
  import opened Wrappers

  /** A property value of a user record. */
  datatype Value = Str(s: string) | Bool(b: bool) | Null

  datatype Field = Field(key: string, value: Value)

  /** A user record, its properties in written order; `Empty` is the `{}` the session starts with. */
  datatype UserRecord = UserRecord(fields: seq<Field>)

  const Empty: UserRecord := UserRecord([])

  // ---------------------------------------------------------------- encoding

  /** The letter of the two-character escape `JSON.stringify` uses for `c`, if it has one. */
  function ShortEscape(c: char): Option<char>
  {
    if c == '"' then Some('"')
    else if c == '\\' then Some('\\')
    else if c == 8 as char then Some('b')
    else if c == '\t' then Some('t')
    else if c == '\n' then Some('n')
    else if c == 12 as char then Some('f')
    else if c == '\r' then Some('r')
    else None
  }

  /** The character a two-character escape with letter `l` stands for. */
  function Unshort(l: char): Option<char>
  {
    if l == '"' then Some('"')
    else if l == '\\' then Some('\\')
    else if l == 'b' then Some(8 as char)
    else if l == 't' then Some('\t')
    else if l == 'n' then Some('\n')
    else if l == 'f' then Some(12 as char)
    else if l == 'r' then Some('\r')
    else None
  }

  /** A lower-case hexadecimal digit. */
  function Hex(n: nat): (c: char)
    requires n < 16
    ensures '0' <= c <= '9' || 'a' <= c <= 'f'
  {
    if n < 10 then ('0' as int + n) as char else ('a' as int + n - 10) as char
  }

  function HexValue(c: char): Option<nat>
  {
    if '0' <= c <= '9' then Some(c as int - '0' as int)
    else if 'a' <= c <= 'f' then Some(c as int - 'a' as int + 10)
    else None
  }

  /** One character of a string literal, escaped as `JSON.stringify` escapes it. */
  function EscapeChar(c: char): string
  {
    if ShortEscape(c).Some? then ['\\', ShortEscape(c).value]
    else if c < ' ' then ['\\', 'u', '0', '0', Hex(c as int / 16), Hex(c as int % 16)]
    else [c]
  }

  function Escape(s: string): string
    decreases |s|
  {
    if |s| == 0 then "" else EscapeChar(s[0]) + Escape(s[1..])
  }

  function EncodeValue(v: Value): string
  {
    match v
    case Str(s) => "\"" + Escape(s) + "\""
    case Bool(b) => if b then "true" else "false"
    case Null => "null"
  }

  function EncodeField(f: Field): string
  {
    "\"" + Escape(f.key) + "\":" + EncodeValue(f.value)
  }

  /** The comma-separated properties of a non-empty record. */
  function EncodeFields(fs: seq<Field>): string
    requires |fs| > 0
    decreases |fs|
  {
    if |fs| == 1 then EncodeField(fs[0])
    else EncodeField(fs[0]) + "," + EncodeFields(fs[1..])
  }

  /** The stored text of a record; never empty, so always truthy in JavaScript. */
  function Encode(r: UserRecord): (s: string)
    ensures |s| >= 2 && s[0] == '{' && s[|s| - 1] == '}'
  {
    if |r.fields| == 0 then "{}" else "{" + EncodeFields(r.fields) + "}"
  }

  // ---------------------------------------------------------------- decoding

  /**
   * Reads one character of a string literal that is not its closing quote:
   * the character and the number of input characters it takes. A raw
   * control character is refused, as is any escape `EscapeChar` does not
   * write.
   */
  function ParseChar(s: string): (r: Option<(char, nat)>)
    requires |s| > 0 && s[0] != '"'
    ensures r.Some? ==> 0 < r.value.1 <= |s|
  {
    if s[0] == '\\' then
      if |s| < 2 then None
      else if Unshort(s[1]).Some? then Some((Unshort(s[1]).value, 2))
      else if |s| >= 6 && s[1] == 'u' && s[2] == '0' && s[3] == '0' && (s[4] == '0' || s[4] == '1')
              && HexValue(s[5]).Some? then
        var c := ((if s[4] == '1' then 16 else 0) + HexValue(s[5]).value) as char;
        if ShortEscape(c).None? then Some((c, 6)) else None
      else None
    else if s[0] < ' ' then None
    else Some((s[0], 1))
  }

  /**
   * Reads the body of a string literal whose opening quote is already
   * consumed: the unescaped text and what follows the closing quote.
   */
  function ParseString(s: string): (r: Option<(string, string)>)
    ensures r.Some? ==> |r.value.1| < |s|
    decreases |s|
  {
    if |s| == 0 then None
    else if s[0] == '"' then Some(("", s[1..]))
    else
      match ParseChar(s)
      case None => None
      case Some(c) =>
        match ParseString(s[c.1..])
        case None => None
        case Some(p) => Some(([c.0] + p.0, p.1))
  }

  function ParseValue(s: string): (r: Option<(Value, string)>)
    ensures r.Some? ==> |r.value.1| < |s|
  {
    if |s| > 0 && s[0] == '"' then
      match ParseString(s[1..])
      case None => None
      case Some(p) => Some((Str(p.0), p.1))
    else if |s| >= 4 && s[..4] == "true" then Some((Bool(true), s[4..]))
    else if |s| >= 5 && s[..5] == "false" then Some((Bool(false), s[5..]))
    else if |s| >= 4 && s[..4] == "null" then Some((Null, s[4..]))
    else None
  }

  function ParseField(s: string): (r: Option<(Field, string)>)
    ensures r.Some? ==> |r.value.1| < |s|
  {
    if |s| == 0 || s[0] != '"' then None
    else
      match ParseString(s[1..])
      case None => None
      case Some(k) =>
        if |k.1| == 0 || k.1[0] != ':' then None
        else
          match ParseValue(k.1[1..])
          case None => None
          case Some(v) => Some((Field(k.0, v.0), v.1))
  }

  /** Reads properties up to and including the closing brace. */
  function ParseFields(s: string): (r: Option<(seq<Field>, string)>)
    ensures r.Some? ==> |r.value.0| > 0 && |r.value.1| < |s|
    decreases |s|
  {
    match ParseField(s)
    case None => None
    case Some(f) =>
      if |f.1| == 0 then None
      else if f.1[0] == '}' then Some(([f.0], f.1[1..]))
      else if f.1[0] == ',' then
        match ParseFields(f.1[1..])
        case None => None
        case Some(more) => Some(([f.0] + more.0, more.1))
      else None
  }

  /** `JSON.parse` of a stored model: None where the text is not a record. */
  function Decode(s: string): Option<UserRecord>
  {
    if s == "{}" then Some(Empty)
    else if |s| > 0 && s[0] == '{' then
      match ParseFields(s[1..])
      case None => None
      case Some(p) => if p.1 == "" then Some(UserRecord(p.0)) else None
    else None
  }

  // ------------------------------------------------------------- round trips

  // Layout facts about concatenations of arbitrary strings. Stating them over
  // plain variables keeps the recursive encoders out of the sequence reasoning.

  lemma Layout(p: string, t: string)
    ensures (p + t)[..|p|] == p && (p + t)[|p|..] == t
    ensures |p| > 0 ==> (p + t)[0] == p[0]
  {
  }

  lemma Regroup(a: string, b: string, c: string)
    ensures a + b + c == a + (b + c)
  {
  }

  /** Where the parts of an encoded field `"key":value` followed by `rest` sit. */
  lemma FieldLayout(ek: string, ev: string, rest: string)
    ensures var s := "\"" + ek + "\":" + ev + rest;
      && s[0] == '"'
      && s[1..] == ek + "\"" + (":" + ev + rest)
  {
    var s := "\"" + ek + "\":" + ev + rest;
    assert s == "\"" + (ek + "\"" + (":" + ev + rest));
  }

  lemma FieldLayoutBack(s: string, ek: string, after: string, ev: string, rest: string)
    requires |s| > 0 && s[0] == '"' && s[1..] == ek + "\"" + after
    requires |after| > 0 && after[0] == ':' && after[1..] == ev + rest
    ensures s == "\"" + ek + "\":" + ev + rest
  {
    assert after == ":" + (ev + rest);
    assert s == "\"" + s[1..];
  }

  lemma ShortEscapeInverse(c: char)
    ensures ShortEscape(c).Some? ==> Unshort(ShortEscape(c).value) == Some(c)
    ensures Unshort(c).Some? ==> ShortEscape(Unshort(c).value) == Some(c)
  {
  }

  lemma HexInverse(n: nat)
    requires n < 16
    ensures HexValue(Hex(n)) == Some(n)
  {
  }

  lemma HexValueInverse(c: char)
    requires HexValue(c).Some?
    ensures HexValue(c).value < 16 && Hex(HexValue(c).value) == c
  {
  }

  /** Every escaped character reads back as itself, whatever follows it. */
  lemma ParseEscapedChar(c: char, t: string)
    ensures var s := EscapeChar(c) + t;
      |s| > 0 && s[0] != '"' && ParseChar(s) == Some((c, |EscapeChar(c)|))
  {
    var e := EscapeChar(c);
    var s := e + t;
    Layout(e, t);
    if ShortEscape(c).Some? {
      ShortEscapeInverse(c);
      assert s[1] == ShortEscape(c).value;
    } else if c < ' ' {
      var v := c as int;
      HexInverse(v % 16);
      assert Unshort('u').None?;
      assert s[1] == 'u' && s[2] == '0' && s[3] == '0' && s[4] == Hex(v / 16) && s[5] == Hex(v % 16);
      assert s[4] == (if v / 16 == 1 then '1' else '0');
      assert ((if s[4] == '1' then 16 else 0) + HexValue(s[5]).value) == v;
    }
  }

  /** What `ParseChar` accepts is exactly the escape of the character it yields. */
  lemma ParsedCharIsEscaped(s: string, c: char, n: nat)
    requires |s| > 0 && s[0] != '"' && ParseChar(s) == Some((c, n))
    ensures s[..n] == EscapeChar(c)
  {
    if s[0] == '\\' {
      if Unshort(s[1]).Some? {
        ShortEscapeInverse(s[1]);
        assert s[..2] == ['\\', s[1]];
      } else {
        HexValueInverse(s[5]);
        var d := HexValue(s[5]).value;
        var v := (if s[4] == '1' then 16 else 0) + d;
        assert c as int == v && v / 16 == (if s[4] == '1' then 1 else 0) && v % 16 == d;
        assert Hex(v / 16) == s[4];
        assert s[..6] == ['\\', 'u', '0', '0', s[4], s[5]];
      }
    } else {
      assert ShortEscape(s[0]).None?;
    }
  }

  lemma {:induction false} ParseEscaped(x: string, rest: string)
    ensures ParseString(Escape(x) + "\"" + rest) == Some((x, rest))
    decreases |x|
  {
    var s := Escape(x) + "\"" + rest;
    if |x| == 0 {
      assert s == "\"" + rest;
      Layout("\"", rest);
    } else {
      var e := EscapeChar(x[0]);
      var tail := Escape(x[1..]) + "\"" + rest;
      Regroup(e, Escape(x[1..]), "\"" + rest);
      Regroup(Escape(x[1..]), "\"", rest);
      assert s == e + tail;
      Layout(e, tail);
      ParseEscapedChar(x[0], tail);
      ParseEscaped(x[1..], rest);
      assert [x[0]] + x[1..] == x;
    }
  }

  lemma {:induction false} ParsedIsEscaped(s: string, x: string, rest: string)
    requires ParseString(s) == Some((x, rest))
    ensures s == Escape(x) + "\"" + rest
    decreases |s|
  {
    if s[0] == '"' {
      assert x == "";
      assert s == "\"" + s[1..];
    } else {
      var c := ParseChar(s).value;
      var p := ParseString(s[c.1..]).value;
      ParsedIsEscaped(s[c.1..], p.0, p.1);
      ParsedCharIsEscaped(s, c.0, c.1);
      assert x == [c.0] + p.0;
      assert x[0] == c.0 && x[1..] == p.0;
      assert s == s[..c.1] + s[c.1..];
      Regroup(EscapeChar(x[0]), Escape(p.0), "\"" + rest);
    }
  }

  lemma ParseEncodedValue(v: Value, rest: string)
    ensures ParseValue(EncodeValue(v) + rest) == Some((v, rest))
  {
    match v
    case Str(x) =>
      var body := Escape(x) + "\"" + rest;
      assert EncodeValue(v) + rest == "\"" + body;
      Layout("\"", body);
      ParseEscaped(x, rest);
    case Bool(b) =>
      if b { Layout("true", rest); } else { Layout("false", rest); }
    case Null =>
      Layout("null", rest);
  }

  lemma ParsedValueIsEncoded(s: string, v: Value, rest: string)
    requires ParseValue(s) == Some((v, rest))
    ensures s == EncodeValue(v) + rest
  {
    if s[0] == '"' {
      var p := ParseString(s[1..]).value;
      ParsedIsEscaped(s[1..], p.0, p.1);
      assert s == "\"" + s[1..];
    } else if |s| >= 4 && s[..4] == "true" {
      assert s == s[..4] + s[4..];
    } else if |s| >= 5 && s[..5] == "false" {
      assert s == s[..5] + s[5..];
    } else {
      assert s == s[..4] + s[4..];
    }
  }

  lemma ParseEncodedField(f: Field, rest: string)
    ensures ParseField(EncodeField(f) + rest) == Some((f, rest))
  {
    var ek, ev := Escape(f.key), EncodeValue(f.value);
    var after := ":" + ev + rest;
    FieldLayout(ek, ev, rest);
    ParseEscaped(f.key, after);
    Layout(":", ev + rest);
    assert after == ":" + (ev + rest);
    ParseEncodedValue(f.value, rest);
  }

  lemma ParsedFieldIsEncoded(s: string, f: Field, rest: string)
    requires ParseField(s) == Some((f, rest))
    ensures s == EncodeField(f) + rest
  {
    var k := ParseString(s[1..]).value;
    ParsedIsEscaped(s[1..], k.0, k.1);
    var v := ParseValue(k.1[1..]).value;
    ParsedValueIsEncoded(k.1[1..], v.0, v.1);
    assert f == Field(k.0, v.0) && rest == v.1;
    FieldLayoutBack(s, Escape(k.0), k.1, EncodeValue(v.0), v.1);
  }

  /** A field followed by the closing brace ends the list. */
  lemma ParseFieldsClose(s: string, f: Field, rest: string)
    requires ParseField(s) == Some((f, "}" + rest))
    ensures ParseFields(s) == Some(([f], rest))
  {
    Layout("}", rest);
  }

  /** A field followed by a comma continues with the rest of the list. */
  lemma ParseFieldsMore(s: string, f: Field, tail: string, fs: seq<Field>, rest: string)
    requires ParseField(s) == Some((f, "," + tail))
    requires ParseFields(tail) == Some((fs, rest))
    ensures ParseFields(s) == Some(([f] + fs, rest))
  {
    Layout(",", tail);
  }

  lemma {:induction false} ParseEncodedFields(fs: seq<Field>, rest: string)
    requires |fs| > 0
    ensures ParseFields(EncodeFields(fs) + "}" + rest) == Some((fs, rest))
    decreases |fs|
  {
    var s := EncodeFields(fs) + "}" + rest;
    var ef := EncodeField(fs[0]);
    if |fs| == 1 {
      Regroup(ef, "}", rest);
      ParseEncodedField(fs[0], "}" + rest);
      ParseFieldsClose(s, fs[0], rest);
      assert [fs[0]] == fs;
    } else {
      var em := EncodeFields(fs[1..]);
      var tail := em + "}" + rest;
      assert s == ef + ("," + tail) by {
        Regroup(ef + ",", em, "}");
        Regroup(ef, ",", tail);
      }
      ParseEncodedField(fs[0], "," + tail);
      ParseEncodedFields(fs[1..], rest);
      ParseFieldsMore(s, fs[0], tail, fs[1..], rest);
      assert [fs[0]] + fs[1..] == fs;
    }
  }

  /** One unfolding of `ParseFields` on an input it accepts. */
  lemma ParseFieldsShape(s: string)
    requires ParseFields(s).Some?
    ensures ParseField(s).Some?
    ensures var after := ParseField(s).value.1;
      && |after| > 0
      && (after[0] == '}' ==> ParseFields(s).value == ([ParseField(s).value.0], after[1..]))
      && (after[0] != '}' ==>
            && after[0] == ','
            && ParseFields(after[1..]).Some?
            && ParseFields(s).value.0 == [ParseField(s).value.0] + ParseFields(after[1..]).value.0
            && ParseFields(s).value.1 == ParseFields(after[1..]).value.1)
  {
  }

  lemma EncodeFieldsCons(f: Field, more: seq<Field>)
    requires |more| > 0
    ensures EncodeFields([f] + more) == EncodeField(f) + "," + EncodeFields(more)
  {
    assert ([f] + more)[1..] == more;
  }

  lemma {:induction false} ParsedFieldsAreEncoded(s: string, fs: seq<Field>, rest: string)
    requires ParseFields(s) == Some((fs, rest))
    ensures |fs| > 0 && s == EncodeFields(fs) + "}" + rest
    decreases |s|
  {
    ParseFieldsShape(s);
    var f := ParseField(s).value;
    ParsedFieldIsEncoded(s, f.0, f.1);
    var after := f.1;
    var ef := EncodeField(f.0);
    if after[0] == '}' {
      assert fs == [f.0] && rest == after[1..];
      assert after == "}" + rest;
      assert EncodeFields(fs) == ef;
      Regroup(ef, "}", rest);
    } else {
      var more := ParseFields(after[1..]).value;
      assert fs == [f.0] + more.0 && rest == more.1;
      ParsedFieldsAreEncoded(after[1..], more.0, more.1);
      var em := EncodeFields(more.0);
      EncodeFieldsCons(f.0, more.0);
      ConcatAfterSeparator(s, ef, after, em + "}" + rest);
      Regroup(ef + ",", em, "}");
      Regroup(ef + "," + em, "}", rest);
      Regroup(ef, ",", em + "}" + rest);
      Regroup(ef + ",", em + "}", rest);
    }
  }

  lemma ConcatAfterSeparator(s: string, head: string, after: string, tail: string)
    requires s == head + after && |after| > 0 && after[0] == ',' && after[1..] == tail
    ensures s == head + "," + tail
  {
    assert after == "," + tail;
  }

  /** Decoding inverts encoding on every record. */
  lemma DecodeEncode(r: UserRecord)
    ensures Decode(Encode(r)) == Some(r)
  {
    if |r.fields| > 0 {
      var s := Encode(r);
      assert s[1..] == EncodeFields(r.fields) + "}" + "";
      ParseEncodedFields(r.fields, "");
      assert s != "{}" by {
        assert |EncodeField(r.fields[0])| >= 2;
      }
    }
  }

  /** The text a record decodes from is exactly its encoding: decoding is injective. */
  lemma EncodeDecode(s: string, r: UserRecord)
    requires Decode(s) == Some(r)
    ensures Encode(r) == s
  {
    if s != "{}" {
      var p := ParseFields(s[1..]).value;
      ParsedFieldsAreEncoded(s[1..], p.0, p.1);
      assert s == [s[0]] + s[1..];
    }
  }

  /** Decode(s) == Some(r) exactly when s is the encoding of r. */
  lemma DecodeIffEncoded(s: string, r: UserRecord)
    ensures Decode(s) == Some(r) <==> s == Encode(r)
  {
    if Decode(s) == Some(r) { EncodeDecode(s, r); }
    if s == Encode(r) { DecodeEncode(r); }
  }

  // ------------------------------------------------------ control characters

  /** No raw control character (below U+0020) occurs in `s`. */
  predicate Printable(s: string)
  {
    forall i :: 0 <= i < |s| ==> s[i] >= ' '
  }

  lemma PrintableConcat(a: string, b: string)
    requires Printable(a) && Printable(b)
    ensures Printable(a + b)
  {
    forall i | 0 <= i < |a + b| ensures (a + b)[i] >= ' ' {
      if i >= |a| { assert (a + b)[i] == b[i - |a|]; }
    }
  }

  lemma {:induction false} EscapePrintable(x: string)
    ensures Printable(Escape(x))
    decreases |x|
  {
    if |x| > 0 {
      EscapePrintable(x[1..]);
      PrintableConcat(EscapeChar(x[0]), Escape(x[1..]));
    }
  }

  lemma EncodeFieldPrintable(f: Field)
    ensures Printable(EncodeField(f))
  {
    EscapePrintable(f.key);
    PrintableConcat("\"", Escape(f.key));
    PrintableConcat("\"" + Escape(f.key), "\":");
    var ev := EncodeValue(f.value);
    if f.value.Str? {
      EscapePrintable(f.value.s);
      PrintableConcat("\"", Escape(f.value.s));
      PrintableConcat("\"" + Escape(f.value.s), "\"");
    }
    PrintableConcat("\"" + Escape(f.key) + "\":", ev);
  }

  lemma {:induction false} EncodeFieldsPrintable(fs: seq<Field>)
    requires |fs| > 0
    ensures Printable(EncodeFields(fs))
    decreases |fs|
  {
    EncodeFieldPrintable(fs[0]);
    if |fs| > 1 {
      EncodeFieldsPrintable(fs[1..]);
      PrintableConcat(EncodeField(fs[0]), ",");
      PrintableConcat(EncodeField(fs[0]) + ",", EncodeFields(fs[1..]));
    }
  }

  /** Text that decodes holds no raw control character. */
  lemma DecodedIsPrintable(s: string)
    requires Decode(s).Some?
    ensures Printable(s)
  {
    var r := Decode(s).value;
    EncodeDecode(s, r);
    if |r.fields| > 0 {
      EncodeFieldsPrintable(r.fields);
      PrintableConcat("{", EncodeFields(r.fields));
      PrintableConcat("{" + EncodeFields(r.fields), "}");
    }
  }

  /** Text holding a raw control character never decodes, as `JSON.parse` refuses it inside a string. */
  lemma ControlCharNeverDecodes(s: string, i: int)
    requires 0 <= i < |s| && s[i] < ' '
    ensures Decode(s).None?
  {
    if Decode(s).Some? {
      DecodedIsPrintable(s);
      assert false;
    }
  }
}

=== FILE: wrappers.dfy ===
/** Failure-carrying values shared by the session model. */
module Wrappers {

  /** A value that may be missing: `null` in the JavaScript the model follows. */
  datatype Option<+T> = None | Some(value: T)

  /** The outcome of a call that can reject: a value, or the error it rejects with. */
  datatype Result<+T, +E> = Ok(value: T) | Err(error: E)
}
